=== FILE: README.md ===
# Theme controller and cookie lookup of the Gacela website, in Dafny

The Gacela project website is a static documentation site. Two pieces of its
browser scripts have behaviour that can be stated exactly, and this project
models both as pure functions over immutable records and proves properties of
them.

- **Theme controller** (`static/themes.js`, `static/initialize-theme.js`,
  `static/dark-mode.js`). On page load it picks a theme. A stored preference
  wins if it is under 120 minutes old. Otherwise the OS colour-scheme signal
  decides. Otherwise the hour decides. `enableTheme` then marks the root
  element, sets the two toggle buttons, recolours the logo SVGs and saves the
  choice with a timestamp. Two listeners keep a tab in step: one reacts to
  storage events from other tabs, one to OS colour-scheme changes. The older
  `dark-mode.js` reads `localStorage.theme` instead. It toggles only the dark
  class and swaps the syntax-highlighting stylesheet link in `<head>`.
- **Cookie lookup** (`static/cookies.js`). `getCookie` splits the decoded
  cookie string on `;` and strips leading spaces from each segment. The first
  segment that starts with `name=` supplies the value, and `""` means absent.
  The consent notice is hidden exactly when that value is non-empty.

Modules and files:

- `optional.dfy`, module `Optional`: the `Option` datatype (`undefined`/`null`).
- `decimal.dfy`, module `Decimal`: `String(n)` for an integer timestamp, and the
  subset of `Number(s)` that reads it back.
- `dom.dfy`, module `Dom`: the page model. It holds the root element, the two
  buttons, the SVGs with their optional `g` group, the `<head>` children and
  `localStorage`. It also holds the logo recolouring both scripts share.
- `themes.dfy`, module `Themes`: `themes.js` and `initialize-theme.js`. The two
  listener bodies are identical line for line, so one definition serves both
  files.
- `dark_mode.dfy`, module `DarkMode`: `dark-mode.js`.
- `cookies.dfy`, module `Cookies`: `getCookie` and the banner decision.

The clock and the media queries are parameters. `Themes.Environment` carries
`now` in milliseconds, the two `prefers-color-scheme` answers, and `hour`
(0 to 23). A resolved theme is exactly light or dark because `Dom.Theme` has
only those two values.

Three behaviours of the scripts are worth stating plainly, and the model
follows them:

- The scripts have no `system` mode: a resolved theme is light or dark.
- The OS listener applies the OS theme whatever preference is stored.
- The storage listener calls `enableTheme`, which also saves the preference
  and a new timestamp in the receiving tab.

## Model

| member | source | states |
|---|---|---|
| Decimal.DigitsRoundTrip | static/themes.js:104-108 | reading back the digits `String(n)` writes for a natural number gives `n` |
| Decimal.MillisToNumber | static/themes.js:57-59 | `Number(s)` on an integer numeral: `""` is 0, digit strings are non-negative, a `-` sign gives a non-positive value, a non-digit after the first character is NaN (None) |
| Decimal.MillisToString | static/themes.js:104-108 | `String(now)` for the stored timestamp: digits only for a non-negative time, a `-` followed by digits for a negative one |
| Decimal.MillisRoundTrip | static/themes.js:104-108 | a timestamp stored with `String(now)` is read back by `Number(...)` as `now`, negative values included |
| Dom.ThemeClass | static/themes.js:85-88 | the root class of a theme is one of `theme-light`/`theme-dark`, and it is `theme-dark` exactly for the dark theme |
| Dom.LogoStroke | static/themes.js:115 | the logo stroke is `#448aff` exactly for dark and `#123456` exactly for light |
| Dom.StrokeGroups | static/themes.js:111-118 | every SVG that has a `g` gets `stroke` set to the colour with its other attributes and classes kept; SVGs without a `g` are untouched; the list keeps its length |
| Dom.StrokeGroupsIdempotent | static/themes.js:110-119 | recolouring twice with the same colour equals recolouring once |
| Dom.StrokeGroupsLastWins | static/themes.js:110-119 | recolouring with one colour and then another equals recolouring with the second alone |
| Dom.GacelaLogoColor | static/themes.js:110-119 | `gacelaLogoColor(t)` restrokes every logo group with the colour of `t` |
| Themes.ParseTheme | static/themes.js:61-67 | only the exact strings "light" and "dark" are themes, and a parsed theme spells the stored string |
| Themes.SaveToLocalStorage | static/themes.js:103-108 | the value is stored under `key` and `String(now)` under `key + "-last-change"`; no other key changes |
| Themes.LastChanged | static/themes.js:56-59 | the number `now - lastChanged` subtracts: a missing timestamp (null) and an empty one read as 0; a timestamp saved by `saveToLocalStorage` is covered by `Themes.SavedTimestampReadBack` |
| Themes.SavedTimestampReadBack | static/themes.js:104-108 | the timestamp `saveToLocalStorage` writes at `now` is read back as exactly `now` |
| Themes.IsFresh | static/themes.js:58-65 | `minutesPassed < 120`: with no timestamp only in the first two hours of the epoch; never for a timestamp `Number` reads as NaN; otherwise for strictly less than 7200000 ms after the time `Number` reads from the stored string |
| Themes.ThemeFromStorage | static/themes.js:55-70 | a preference is returned only if it is exactly "light"/"dark" and fresh, and every such fresh preference is returned |
| Themes.FreshnessEdge | static/themes.js:58-65 | a choice saved at `at` is used at `at + 7199999` ms and ignored at `at + 7200000` ms |
| Themes.UnreadableTimestampIsStale | static/themes.js:57-61 | a timestamp that coerces to NaN makes the stored preference unusable |
| Themes.ThemeFromOS | static/themes.js:40-52 | dark if the dark query matches; light only if the dark query fails and the light one matches; undefined otherwise |
| Themes.ThemeFromTime | static/themes.js:73-80 | the hour rule gives dark exactly for hours 21, 22, 23, 0, 1, 2, 3, 4 |
| Themes.NightBoundaries | static/themes.js:75-79 | hours 20 and 5 are light, hours 21 and 4 are dark |
| Themes.ResolveTheme | static/themes.js:4-6 | a fresh stored "light"/"dark" is the theme; otherwise dark if the dark query matches, then light if the light query does; otherwise dark exactly in the night hours |
| Themes.FreshPreferenceWins | static/themes.js:4-6 | a fresh stored "light"/"dark" decides the page-load theme whatever the OS and the hour |
| Themes.OsBeatsClock | static/themes.js:4-6 | without a usable preference, a definite OS answer decides whatever the hour |
| Themes.ClockIsLastResort | static/themes.js:4-6 | with neither a usable preference nor an OS answer, the theme is dark exactly in the night hours |
| Themes.UnusablePreferenceFallsThrough | static/themes.js:55-70 | a stale, NaN-stamped or foreign stored value resolves exactly as if no preference were stored |
| Themes.SwitchRootClass | static/themes.js:84-88 | the root gains `theme-t`, loses the other theme class, and keeps every other class and attribute |
| Themes.PressButton | static/themes.js:90-96 | the `t` button loses `enabled` and gets `aria-pressed="true"`; the other gains `enabled` and `aria-pressed="false"`; nothing else on them or the document changes |
| Themes.EnableTheme | static/themes.js:83-101 | exactly one theme class on the root with other classes kept; the buttons pressed as above; every logo group restroked; `<head>` unchanged; the preference and its time stored, no other key touched |
| Themes.SwitchRootClassIdempotent | static/themes.js:87-88 | switching the root class to the same theme twice equals once |
| Themes.PressButtonIdempotent | static/themes.js:90-96 | pressing the same theme's button twice leaves both buttons as after once |
| Themes.EnableThemeIdempotent | static/themes.js:83-101 | enabling the same theme again, at any time, equals enabling it once at the later time |
| Themes.EnableThenResolve | static/themes.js:55-108 | after `enableTheme(t)` at `now`, resolving at any time less than two hours later returns `t`, whatever the OS and the hour |
| Themes.OnStorageEvent | static/themes.js:11-21 | the storage listener applies `enableTheme` only for key `preference-theme` with value exactly "light"/"dark"; any other event leaves the page as it was |
| Themes.SyncFollowsOtherTab | static/initialize-theme.js:8-16 | a "light"/"dark" choice from another tab leaves this tab's root with that theme's class and without the other |
| Themes.SyncIgnoresPrefixedValue | static/initialize-theme.js:9-14 | the value "theme-dark" under `preference-theme` changes nothing |
| Themes.OnColorSchemeChange | static/themes.js:24-37 | after the OS listener the root carries the class matching `matches`; if it already did, the page (document and storage) is unchanged, otherwise the matching theme is enabled |
| Themes.ColorSchemeChangeSettles | static/initialize-theme.js:23-32 | a repeated OS notification with the same `matches` changes nothing further |
| Themes.InitializeTheme | static/themes.js:1-8 | page load registers the storage then the OS listener and enables the resolved theme in full: exactly that theme's class on the root with other classes and attributes kept, its button pressed and the other offered with their other classes and attributes kept, every logo group restroked, `<head>` unchanged, the theme and `String(now)` stored with no other key touched; resolving again gives the same theme |
| Themes.InitializeListeners | static/initialize-theme.js:1-4 | this script only registers the two listeners and leaves the page untouched |
| DarkMode.StoredTheme | static/dark-mode.js:6 | the effective theme is dark iff `localStorage.theme` is exactly "dark"; absent or any other value is light |
| DarkMode.LogoColorFromStore | static/dark-mode.js:5-16 | the logo groups take the stored theme's stroke; storage, root, buttons and `<head>` are unchanged |
| DarkMode.FirstHighlight | static/dark-mode.js:53 | the link `querySelector('.highlight_theme')` finds: it is a highlight link and no highlight link comes before it |
| DarkMode.RemoveFirstHighlight | static/dark-mode.js:53-56 | with no highlight link nothing changes; otherwise the first highlight link in document order is removed, and the children before and after it stay in order |
| DarkMode.HighlightLink | static/dark-mode.js:58-62 | the new link has the highlight class, href `/syntax-theme-<theme>.css` and rel `stylesheet` |
| DarkMode.AddHighlightTheme | static/dark-mode.js:50-64 | the first highlight link is removed and the new link appended last; the highlight count becomes 1 if it was 0 and is otherwise unchanged; other children keep their order |
| DarkMode.AddHighlightThemeLastWins | static/dark-mode.js:50-64 | with at most one highlight link, adding one stylesheet and then another equals adding the second alone |
| DarkMode.SingleHighlightKept | static/dark-mode.js:53-63 | with at most one highlight link before, exactly one exists after |
| DarkMode.MarkRoot | static/dark-mode.js:31-43 | dark adds `theme-dark`, light removes it; `color-theme` is set to the theme name; other classes and attributes are unchanged |
| DarkMode.MarkRootLastWins | static/dark-mode.js:31-43 | marking the root for one theme and then another equals marking it for the second alone |
| DarkMode.UpdateTheme | static/dark-mode.js:30-46 | `theme-dark` is on the root iff `localStorage.theme` is "dark"; `theme-light` is never added or removed; `color-theme` follows; the theme's stylesheet ends `<head>` after the first old one is removed; the logo is restroked; storage and buttons are unchanged |
| DarkMode.UpdateThemeIdempotent | static/dark-mode.js:30-63 | with at most one highlight link in `<head>`, updating twice equals updating once |
| DarkMode.SwitchTo | static/dark-mode.js:18-28 | `theme` holds the theme name and `preference-theme` holds `theme-<name>`, no other key changes; the root gets or loses `theme-dark` and `color-theme`, other root classes and attributes kept; the theme's stylesheet replaces the first old one at the end of `<head>`, other children kept; the logo is restroked; the buttons are untouched |
| DarkMode.SwitchToIdempotent | static/dark-mode.js:18-63 | with at most one highlight link in `<head>`, switching to the same theme twice equals switching once |
| DarkMode.ReloadKeepsSwitch | static/dark-mode.js:18-48 | with at most one highlight link in the served `<head>`, reloading after a switch (the served document, updated at load time from the switched storage) shows exactly the page the switch left |
| DarkMode.UpdateAfterSwitchSettles | static/dark-mode.js:18-46 | with at most one highlight link in `<head>`, a second `updateTheme()` on the page a switch left changes nothing |
| DarkMode.ToDarkMode | static/dark-mode.js:18-22 | stores "dark" and "theme-dark" with no other key changed; the root carries `theme-dark` and `color-theme="dark"` with its other classes and attributes kept; the dark stylesheet replaces the first old one at the end of `<head>`; the dark logo stroke; buttons untouched |
| DarkMode.ToLightMode | static/dark-mode.js:24-28 | stores "light" and "theme-light" with no other key changed; the root lacks `theme-dark` and has `color-theme="light"` with its other classes and attributes kept; the light stylesheet replaces the first old one at the end of `<head>`; the light logo stroke; buttons untouched |
| DarkMode.SwitchedPreferenceUnreadByResolver | static/dark-mode.js:20 | the `preference-theme` value this script writes is never a usable preference for the `themes.js` resolver |
| Cookies.IndexOf | static/cookies.js:26 | the index found holds the separator and no earlier position does |
| Cookies.Split | static/cookies.js:26 | `split(';')` gives at least one piece and no piece contains `;` |
| Cookies.JoinSplit | static/cookies.js:26 | joining the pieces with `;` gives the cookie string back |
| Cookies.SplitJoin | static/cookies.js:26 | splitting `;`-joined separator-free pieces gives those pieces back |
| Cookies.StripLeadingSpaces | static/cookies.js:29-31 | the stripped segment is no longer and does not start with a space |
| Cookies.StripShape | static/cookies.js:29-31 | exactly the leading spaces are removed: the result is a suffix and everything removed was a space |
| Cookies.FirstMatch | static/cookies.js:27-35 | the segment found matches `name=` after stripping and no earlier segment does; none is found only if no segment matches |
| Cookies.SegmentValue | static/cookies.js:27-36 | the value never contains `;` |
| Cookies.GetCookie | static/cookies.js:23-37 | the value returned never contains `;` |
| Cookies.FoundCookie | static/cookies.js:32-33 | the first matching segment supplies everything after `name=` in its stripped form |
| Cookies.MissingCookieIsEmpty | static/cookies.js:36 | `""` when no stripped segment starts with `name=` |
| Cookies.GetCookieOccurs | static/cookies.js:26-33 | the value returned occurs in the cookie string |
| Cookies.ValueMayHoldEquals | static/cookies.js:33 | `a=b=c` read as `a` gives `b=c` |
| Cookies.TabIsNotStripped | static/cookies.js:29-32 | only U+0020 is stripped: a tab before the name hides the cookie |
| Cookies.TrailingSpaceKept | static/cookies.js:29-33 | a trailing space after the value stays in the value returned |
| Cookies.SkipSpaces | static/cookies.js:29-31 | the `while` loop computes exactly the stripped segment |
| Cookies.GetCookieLoop | static/cookies.js:23-37 | the `for` loop with early return computes exactly `GetCookie` |
| Cookies.GetCookieRoundTrip | static/cookies.js:23-37 | on a `"; "`-joined list of well-formed `k=v` pairs, `getCookie(k)` returns the value of the first pair named `k`, or `""` if none |
| Cookies.BannerDisplay | static/cookies.js:3-7 | the notice is hidden iff `getCookie("user_cookie_consent")` is non-empty |
| Cookies.BannerFollowsConsent | static/cookies.js:1-7 | on a browser-formatted cookie string the notice is hidden iff the first consent pair has a non-empty value, so an emptied consent cookie shows the notice like a missing one |

## Left out

- `static/default.js`: a one-time insertion of a fixed menu and SVG string, with no logic.
- `static/copy-text-from-code.js`: clipboard `execCommand`, selection ranges and a timed tooltip are platform side effects.
- `vite.config.js`: static build configuration.
- `setCookie`, `deleteCookie` and `acceptCookieConsent` (static/cookies.js:9-21, 39-43): they depend on `Date` formatting and on the browser's cookie-jar semantics of the `document.cookie` setter. The model takes the cookie string as the browser presents it.
- `decodeURIComponent` (static/cookies.js:25), including its URIError on malformed input: the model starts from the decoded string.
- Listener registration: `addEventListener`, `matchMedia(...).addListener` and `DOMContentLoaded`. `Themes.InitializeTheme` and `Themes.InitializeListeners` record which listeners are registered. The handler bodies are modelled, but event delivery, its timing and cross-tab ordering are not.
- `localStorage` calls that throw (a SecurityError when storage is disabled, static/themes.js:56; a QuotaExceededError from `setItem`, static/themes.js:106-107) are not modelled. In the source they abort `initializeTheme` or `enableTheme` partway; the model's storage always succeeds.
- `Themes.InitializeTheme`: the source reads the clock once for resolving (static/themes.js:58) and again for the saved timestamp (static/themes.js:105). The model uses the single `Environment.now` for both, so the milliseconds between the two reads are not modelled.
- Element lookups (`getElementById`, `querySelector`, `querySelectorAll`) are record fields. The crash when an element is missing is not modelled.
- `enableTheme` is modelled for the two themes only. Every call site passes "light" or "dark". Any other string makes the code crash on a missing button.
- `.highlight_theme` is searched only among the children of `<head>`. The source searches the whole document, but `head.removeChild` fails for a link found anywhere else.
- `Decimal.MillisToNumber`: only integer numerals with an optional sign are read. `Number` also accepts surrounding whitespace, fractions, exponents, hex and `Infinity`. The model treats those as NaN, so they are stale. In the source, `Infinity` would count as fresh forever.
- Timestamps are unbounded integers. Floating-point rounding of `now - lastChanged` beyond 2^53 ms is not modelled, and the division by 60000 is replaced by the exactly equivalent integer comparison `now - last < 7200000`.
- The `DOMContentLoaded` call of `gacelaLogoColor` and the load-time `updateTheme()` call in static/dark-mode.js:1-3 and 48 are covered by `DarkMode.LogoColorFromStore` and `DarkMode.UpdateTheme`. When the browser dispatches those calls is not modelled.

=== FILE: cookies.dfy ===
/**
 * `getCookie` of `static/cookies.js` on the already-decoded `document.cookie`
 * string, and the consent banner decision made from its result.
 */
module Cookies {
  import opened Optional

  const Separator := ';'

  /** The cookie whose non-empty value hides the consent banner. */
  const ConsentCookie := "user_cookie_consent"

  /** The pieces of `s.split(';')` glued back together. */
  function Join(parts: seq<string>): string {
    if |parts| == 0 then ""
    else if |parts| == 1 then parts[0]
    else parts[0] + [Separator] + Join(parts[1..])
  }

  function IndexOf(s: string, c: char): (i: nat)
    requires c in s
    ensures i < |s| && s[i] == c && c !in s[..i]
  {
    if s[0] == c then 0
    else
      var j := IndexOf(s[1..], c);
      assert s[1..][..j] == s[1..j + 1];
      j + 1
  }

  /** A position holding `c` with no `c` before it is what `IndexOf` finds. */
  lemma IndexOfFirst(s: string, c: char, i: nat)
    requires i < |s| && s[i] == c && c !in s[..i]
    ensures IndexOf(s, c) == i
  {
  }

  /** `s.split(';')`: never empty, and no piece holds a separator. */
  function Split(s: string): (parts: seq<string>)
    ensures |parts| >= 1
    ensures forall k :: 0 <= k < |parts| ==> Separator !in parts[k]
    decreases |s|
  {
    if Separator !in s then [s]
    else
      var i := IndexOf(s, Separator);
      [s[..i]] + Split(s[i + 1..])
  }

  /** Joining the pieces of a split gives the string back. */
  lemma {:induction false} JoinSplit(s: string)
    ensures Join(Split(s)) == s
    decreases |s|
  {
    if Separator in s {
      var i := IndexOf(s, Separator);
      var rest := Split(s[i + 1..]);
      JoinSplit(s[i + 1..]);
      assert ([s[..i]] + rest)[1..] == rest;
      assert s == s[..i] + [Separator] + s[i + 1..];
    }
  }

  /** Splitting separator-free pieces that were joined gives the pieces back. */
  lemma {:induction false} SplitJoin(parts: seq<string>)
    requires |parts| >= 1
    requires forall k :: 0 <= k < |parts| ==> Separator !in parts[k]
    ensures Split(Join(parts)) == parts
  {
    if |parts| > 1 {
      var s := Join(parts);
      var i := |parts[0]|;
      assert s[i] == Separator && s[..i] == parts[0] && s[i + 1..] == Join(parts[1..]);
      IndexOfFirst(s, Separator, i);
      SplitJoin(parts[1..]);
    }
  }

  /** Drops the spaces (U+0020 only) a cookie segment starts with: the result no longer starts with a space. */
  function StripLeadingSpaces(c: string): (r: string)
    ensures |r| <= |c|
    ensures |r| == 0 || r[0] != ' '
  {
    if |c| > 0 && c[0] == ' ' then StripLeadingSpaces(c[1..]) else c
  }

  /** Only leading spaces go: what was removed is all spaces, and the rest is kept as it was. */
  lemma {:induction false} StripShape(c: string)
    ensures var r := StripLeadingSpaces(c);
      && r == c[|c| - |r|..]
      && forall i :: 0 <= i < |c| - |r| ==> c[i] == ' '
  {
    if |c| > 0 && c[0] == ' ' {
      StripShape(c[1..]);
      assert forall i :: 1 <= i < |c| ==> c[1..][i - 1] == c[i];
    }
  }

  /** The stripped segment starts with the searched-for `name=`. */
  predicate SegmentMatches(segment: string, name: string) {
    name <= StripLeadingSpaces(segment)
  }

  /** The index of the first segment that matches `name`, if any. */
  function FirstMatch(parts: seq<string>, name: string): (r: Option<nat>)
    ensures r.Some? ==> r.value < |parts| && SegmentMatches(parts[r.value], name)
    ensures r.Some? ==> forall j :: 0 <= j < r.value ==> !SegmentMatches(parts[j], name)
    ensures r.None? ==> forall j :: 0 <= j < |parts| ==> !SegmentMatches(parts[j], name)
  {
    if |parts| == 0 then None
    else if SegmentMatches(parts[0], name) then Some(0)
    else
      assert forall j :: 1 <= j < |parts| ==> parts[1..][j - 1] == parts[j];
      match FirstMatch(parts[1..], name)
      case None => None
      case Some(k) => Some(k + 1)
  }

  /** A match with no match before it is the first match. */
  lemma FirstMatchAt(parts: seq<string>, name: string, i: nat)
    requires i < |parts| && SegmentMatches(parts[i], name)
    requires forall j :: 0 <= j < i ==> !SegmentMatches(parts[j], name)
    ensures FirstMatch(parts, name) == Some(i)
  {
  }

  /** What the loop of `getCookie` returns for the segments `parts` and the prefix `name`. */
  function SegmentValue(parts: seq<string>, name: string): (r: string)
    requires forall k :: 0 <= k < |parts| ==> Separator !in parts[k]
    ensures Separator !in r
  {
    match FirstMatch(parts, name)
    case Some(i) =>
      var seg := StripLeadingSpaces(parts[i]);
      StripShape(parts[i]);
      assert seg[|name|..] == parts[i][|parts[i]| - |seg| + |name|..];
      seg[|name|..]
    case None => ""
  }

  /** `getCookie(cname)` on the decoded cookie string. */
  function GetCookie(cookie: string, cname: string): (r: string)
    ensures Separator !in r
  {
    SegmentValue(Split(cookie), cname + "=")
  }

  /** Each piece of a join occurs in the joined string at some offset. */
  lemma {:induction false} PartOccurs(parts: seq<string>, k: nat) returns (at: nat)
    requires k < |parts|
    ensures at + |parts[k]| <= |Join(parts)|
    ensures Join(parts)[at..at + |parts[k]|] == parts[k]
  {
    if |parts| == 1 {
      at := 0;
    } else if k == 0 {
      at := 0;
      assert Join(parts)[..|parts[0]|] == parts[0];
    } else {
      var inner := PartOccurs(parts[1..], k - 1);
      var offset := |parts[0]| + 1;
      assert Join(parts)[offset..] == Join(parts[1..]);
      at := offset + inner;
      assert Join(parts)[at..at + |parts[k]|] == Join(parts[1..])[inner..inner + |parts[k]|];
    }
  }

  /** A suffix of a piece that occurs at `at` occurs in the whole string. */
  lemma SuffixOccurs(s: string, part: string, at: nat, r: string)
    requires at + |part| <= |s| && s[at..at + |part|] == part
    requires |r| <= |part| && r == part[|part| - |r|..]
    ensures r <= s[at + |part| - |r|..]
  {
  }

  /** The value returned is a piece of the cookie string itself. */
  lemma GetCookieOccurs(cookie: string, cname: string)
    ensures exists at :: 0 <= at <= |cookie| && GetCookie(cookie, cname) <= cookie[at..]
  {
    var r := GetCookie(cookie, cname);
    var parts := Split(cookie);
    match FirstMatch(parts, cname + "=")
    case None =>
      assert r <= cookie[0..];
    case Some(i) =>
      JoinSplit(cookie);
      var at := PartOccurs(parts, i);
      StripShape(parts[i]);
      SuffixOccurs(cookie, parts[i], at, r);
  }

  /** No segment matching means the empty string. */
  lemma MissingCookieIsEmpty(cookie: string, cname: string)
    requires forall k :: 0 <= k < |Split(cookie)| ==> !(cname + "=" <= StripLeadingSpaces(Split(cookie)[k]))
    ensures GetCookie(cookie, cname) == ""
  {
  }

  /** The first matching segment, stripped, supplies the value after `name=`. */
  lemma FoundCookie(cookie: string, cname: string, i: nat)
    requires FirstMatch(Split(cookie), cname + "=") == Some(i)
    ensures GetCookie(cookie, cname) == StripLeadingSpaces(Split(cookie)[i])[|cname| + 1..]
  {
  }

  /** The value is everything after the first `name=`, so it may itself hold `=`. */
  lemma ValueMayHoldEquals()
    ensures GetCookie("a=b=c", "a") == "b=c"
  {
  }

  /** Only spaces are stripped: a tab before the name hides the cookie. */
  lemma TabIsNotStripped()
    ensures GetCookie("\ta=1", "a") == ""
  {
  }

  /** Only leading spaces are stripped: a trailing space stays in the value. */
  lemma TrailingSpaceKept()
    ensures GetCookie(" a=1 ", "a") == "1 "
  {
  }

  /** The space-stripping `while` of `getCookie`. */
  method SkipSpaces(segment: string) returns (c: string)
    ensures c == StripLeadingSpaces(segment)
  {
    c := segment;
    while |c| > 0 && c[0] == ' '
      invariant StripLeadingSpaces(c) == StripLeadingSpaces(segment)
    {
      c := c[1..];
    }
  }

  /** `getCookie` written as in the source: a `for` over the segments, first match returns. */
  method GetCookieLoop(cookie: string, cname: string) returns (r: string)
    ensures r == GetCookie(cookie, cname)
  {
    var name := cname + "=";
    var ca := Split(cookie);
    var i := 0;
    while i < |ca|
      invariant 0 <= i <= |ca|
      invariant forall j :: 0 <= j < i ==> !SegmentMatches(ca[j], name)
    {
      var c := SkipSpaces(ca[i]);
      if name <= c {
        FirstMatchAt(ca, name, i);
        FoundCookie(cookie, cname, i);
        return c[|name|..];
      }
      i := i + 1;
    }
    MissingCookieIsEmpty(cookie, cname);
    return "";
  }

  /** A `key=value` pair as the browser lists it in `document.cookie`. */
  datatype Pair = Pair(key: string, value: string)

  function PairText(p: Pair): string {
    p.key + "=" + p.value
  }

  /** Keys without `;`, `=` or a leading space, and values without `;`. */
  predicate WellFormed(p: Pair) {
    && Separator !in p.key && '=' !in p.key && (|p.key| == 0 || p.key[0] != ' ')
    && Separator !in p.value
  }

  /** `document.cookie` as browsers present it: the pairs joined with "; ". */
  function Serialize(pairs: seq<Pair>): string {
    if |pairs| == 0 then ""
    else if |pairs| == 1 then PairText(pairs[0])
    else PairText(pairs[0]) + "; " + Serialize(pairs[1..])
  }

  /** The value of the first pair named `key`. */
  function Lookup(pairs: seq<Pair>, key: string): Option<string> {
    if |pairs| == 0 then None
    else if pairs[0].key == key then Some(pairs[0].value)
    else Lookup(pairs[1..], key)
  }

  lemma StripSpacesOfPair(lead: string, p: Pair)
    requires lead == "" || lead == " "
    requires WellFormed(p)
    ensures StripLeadingSpaces(lead + PairText(p)) == PairText(p)
  {
  }

  lemma PairMatchesOnlyItsKey(p: Pair, key: string)
    requires WellFormed(p) && '=' !in key
    ensures key + "=" <= PairText(p) <==> p.key == key
  {
    var name := key + "=";
    var text := PairText(p);
    assert forall k :: 0 <= k < |p.key| ==> text[k] == p.key[k];
    assert forall k :: 0 <= k < |key| ==> name[k] == key[k];
    assert text[|p.key|] == '=' && name[|key|] == '=';
  }

  lemma SplitAtFirst(a: string, b: string)
    requires Separator !in a
    ensures Split(a + [Separator] + b) == [a] + Split(b)
  {
    var s := a + [Separator] + b;
    assert s[..|a|] == a;
    IndexOfFirst(s, Separator, |a|);
    assert s[|a| + 1..] == b;
  }

  /** The value of a non-empty segment list: the first segment decides, or the rest do. */
  lemma SegmentValueCons(parts: seq<string>, name: string)
    requires |parts| >= 1
    requires forall k :: 0 <= k < |parts| ==> Separator !in parts[k]
    ensures SegmentMatches(parts[0], name) ==> SegmentValue(parts, name) == StripLeadingSpaces(parts[0])[|name|..]
    ensures !SegmentMatches(parts[0], name) ==> SegmentValue(parts, name) == SegmentValue(parts[1..], name)
  {
  }

  lemma SerializeCons(pairs: seq<Pair>, lead: string)
    requires |pairs| >= 2
    ensures lead + Serialize(pairs) == (lead + PairText(pairs[0])) + [Separator] + (" " + Serialize(pairs[1..]))
  {
  }

  lemma PairValueAfterName(p: Pair)
    ensures PairText(p)[|p.key| + 1..] == p.value
  {
  }

  lemma {:induction false} ValueOfSerialized(pairs: seq<Pair>, key: string, lead: string)
    requires lead == "" || lead == " "
    requires forall k :: 0 <= k < |pairs| ==> WellFormed(pairs[k])
    requires '=' !in key
    ensures SegmentValue(Split(lead + Serialize(pairs)), key + "=") == Lookup(pairs, key).GetOr("")
  {
    var name := key + "=";
    var parts := Split(lead + Serialize(pairs));
    if |pairs| == 0 {
      assert lead + Serialize(pairs) == lead;
      assert parts == [lead];
      assert StripLeadingSpaces(lead) == "";
      SegmentValueCons(parts, name);
    } else {
      var first := lead + PairText(pairs[0]);
      StripSpacesOfPair(lead, pairs[0]);
      PairMatchesOnlyItsKey(pairs[0], key);
      if |pairs| == 1 {
        assert Separator !in first;
        assert parts == [first];
      } else {
        var rest := Serialize(pairs[1..]);
        SerializeCons(pairs, lead);
        SplitAtFirst(first, " " + rest);
        assert parts[1..] == Split(" " + rest);
        ValueOfSerialized(pairs[1..], key, " ");
      }
      SegmentValueCons(parts, name);
      if pairs[0].key == key {
        PairValueAfterName(pairs[0]);
      }
    }
  }

  /**
   * Round trip: reading a cookie from a browser-formatted cookie string gives the
   * value of the first pair with that name, or "" when there is none.
   */
  lemma {:induction false} GetCookieRoundTrip(pairs: seq<Pair>, key: string)
    requires forall k :: 0 <= k < |pairs| ==> WellFormed(pairs[k])
    requires '=' !in key
    ensures GetCookie(Serialize(pairs), key) == Lookup(pairs, key).GetOr("")
  {
    ValueOfSerialized(pairs, key, "");
    assert "" + Serialize(pairs) == Serialize(pairs);
  }

  /** `style.display` of the consent notice. */
  datatype Display = Hidden | Shown

  /** The top-level code of `cookies.js`: hide the notice once consent has a non-empty value. */
  function BannerDisplay(cookie: string): (d: Display)
    ensures d == Hidden <==> GetCookie(cookie, ConsentCookie) != ""
  {
    if GetCookie(cookie, ConsentCookie) != "" then Hidden else Shown
  }

  /**
   * On a browser-formatted cookie string the notice is hidden exactly when the
   * first consent pair has a non-empty value: an emptied consent cookie, as
   * `deleteCookie` leaves it, shows the notice just as a missing one does.
   */
  lemma {:induction false} BannerFollowsConsent(pairs: seq<Pair>)
    requires forall k :: 0 <= k < |pairs| ==> WellFormed(pairs[k])
    ensures BannerDisplay(Serialize(pairs)) == Hidden
      <==> Lookup(pairs, ConsentCookie).Some? && Lookup(pairs, ConsentCookie).value != ""
  {
    NoEqualsInConsentName();
    GetCookieRoundTrip(pairs, ConsentCookie);
  }

  lemma NoEqualsInConsentName()
    ensures '=' !in ConsentCookie
  {
  }
}

=== FILE: dark_mode.dfy ===
/**
 * The older theme script `static/dark-mode.js`: the effective theme is read from
 * `localStorage.theme`, `updateTheme` marks the root and swaps the syntax
 * highlighting stylesheet in `<head>`, and `toDarkMode`/`toLightMode` store a
 * choice and update.
 */
module DarkMode {
  import opened Optional
  import opened Dom
  import Themes

  /** `localStorage.theme`, the key this script reads its theme from. */
  const ThemeKey := "theme"

  /** The class marking the syntax highlighting stylesheet link. */
  const HighlightClass := "highlight_theme"

  /** The root attribute `updateTheme` sets. */
  const ColorThemeAttr := "color-theme"

  /** The theme this script reads from storage: dark only for the exact string "dark", light for anything else or nothing. */
  function StoredTheme(store: Store): (t: Theme)
    ensures t == Dark <==> ThemeKey in store && store[ThemeKey] == "dark"
  {
    if ThemeKey in store && store[ThemeKey] == "dark" then Dark else Light
  }

  /** `gacelaLogoColor()` of this script: the logo follows the stored theme. */
  function LogoColorFromStore(page: Page): (r: Page)
    ensures Restroked(page.doc.svgs, r.doc.svgs, LogoStroke(StoredTheme(page.store)))
    ensures r.store == page.store
    ensures r.doc.root == page.doc.root && r.doc.head == page.doc.head
    ensures r.doc.lightButton == page.doc.lightButton && r.doc.darkButton == page.doc.darkButton
  {
    page.(doc := page.doc.(svgs := GacelaLogoColor(page.doc.svgs, StoredTheme(page.store))))
  }

  predicate IsHighlight(e: Element) {
    HighlightClass in e.classes
  }

  /** How many children of `<head>` carry the highlight class. */
  function HighlightCount(head: seq<Element>): nat {
    if |head| == 0 then 0
    else (if IsHighlight(head[0]) then 1 else 0) + HighlightCount(head[1..])
  }

  /** The children of `<head>` that are not highlight links, in order. */
  function Plain(head: seq<Element>): seq<Element> {
    if |head| == 0 then []
    else (if IsHighlight(head[0]) then [] else [head[0]]) + Plain(head[1..])
  }

  lemma {:induction false} AppendCounts(head: seq<Element>, e: Element)
    ensures HighlightCount(head + [e]) == HighlightCount(head) + (if IsHighlight(e) then 1 else 0)
    ensures Plain(head + [e]) == Plain(head) + (if IsHighlight(e) then [] else [e])
  {
    if |head| > 0 {
      assert (head + [e])[1..] == head[1..] + [e];
      AppendCounts(head[1..], e);
    } else {
      assert head + [e] == [e];
    }
  }

  /** The position of the first highlight link in document order, the one `querySelector` finds. */
  function FirstHighlight(head: seq<Element>): (i: nat)
    requires HighlightCount(head) > 0
    ensures i < |head| && IsHighlight(head[i])
    ensures HighlightCount(head[..i]) == 0
  {
    if IsHighlight(head[0]) then 0
    else
      var j := FirstHighlight(head[1..]);
      assert head[..j + 1] == [head[0]] + head[1..][..j];
      assert HighlightCount(head[..j + 1]) == HighlightCount(head[1..][..j]) by {
        assert head[..j + 1][1..] == head[1..][..j];
      }
      j + 1
  }

  /**
   * Removing the old stylesheet: the first highlight link in document order
   * leaves, everything else stays in order.
   */
  function RemoveFirstHighlight(head: seq<Element>): (r: seq<Element>)
    ensures HighlightCount(head) == 0 ==> r == head
    ensures HighlightCount(head) > 0 ==> HighlightCount(r) == HighlightCount(head) - 1 && |r| == |head| - 1
    ensures Plain(r) == Plain(head)
    ensures HighlightCount(head) > 0 ==> r == head[..FirstHighlight(head)] + head[FirstHighlight(head) + 1..]
  {
    if |head| == 0 then []
    else if IsHighlight(head[0]) then
      assert head[..0] + head[1..] == head[1..];
      head[1..]
    else
      var rest := RemoveFirstHighlight(head[1..]);
      assert ([head[0]] + rest)[1..] == rest;
      if HighlightCount(head) > 0 then
        FirstHighlightShifts(head, rest);
        [head[0]] + rest
      else
        [head[0]] + rest
  }

  /** Past a plain first child, the first highlight link is one further on. */
  lemma {:induction false} FirstHighlightShifts(head: seq<Element>, rest: seq<Element>)
    requires |head| > 0 && !IsHighlight(head[0]) && HighlightCount(head[1..]) > 0
    requires rest == head[1..][..FirstHighlight(head[1..])] + head[1..][FirstHighlight(head[1..]) + 1..]
    ensures HighlightCount(head) > 0
    ensures [head[0]] + rest == head[..FirstHighlight(head)] + head[FirstHighlight(head) + 1..]
  {
    var j := FirstHighlight(head[1..]);
    assert FirstHighlight(head) == j + 1;
    assert head[..j + 1] == [head[0]] + head[1..][..j];
    assert head[j + 2..] == head[1..][j + 1..];
  }

  /** Once no highlight link is left, removing the first one finds the one just appended. */
  lemma {:induction false} RemoveFirstFindsAppended(head: seq<Element>, e: Element)
    requires HighlightCount(head) == 0 && IsHighlight(e)
    ensures RemoveFirstHighlight(head + [e]) == head
  {
    if |head| == 0 {
      assert head + [e] == [e];
    } else {
      assert (head + [e])[1..] == head[1..] + [e];
      RemoveFirstFindsAppended(head[1..], e);
      assert [head[0]] + head[1..] == head;
    }
  }

  /** The stylesheet link `addDynamicallyCssHighlightTheme` creates. */
  function HighlightLink(t: Theme): (e: Element)
    ensures IsHighlight(e)
    ensures "href" in e.attrs && e.attrs["href"] == "/syntax-theme-" + ThemeName(t) + ".css"
    ensures "rel" in e.attrs && e.attrs["rel"] == "stylesheet"
  {
    Element({HighlightClass}, map["href" := "/syntax-theme-" + ThemeName(t) + ".css", "type" := "text/css", "rel" := "stylesheet"])
  }

  /** `addDynamicallyCssHighlightTheme(theme)` on the children of `<head>`. */
  function AddHighlightTheme(head: seq<Element>, t: Theme): (r: seq<Element>)
    ensures |r| > 0 && r[|r| - 1] == HighlightLink(t)
    ensures r[..|r| - 1] == RemoveFirstHighlight(head)
    ensures HighlightCount(r) == (if HighlightCount(head) == 0 then 1 else HighlightCount(head))
    ensures Plain(r) == Plain(head)
  {
    var kept := RemoveFirstHighlight(head);
    AppendCounts(kept, HighlightLink(t));
    assert (kept + [HighlightLink(t)])[..|kept|] == kept;
    kept + [HighlightLink(t)]
  }

  /** With at most one highlight link before, there is exactly one after. */
  lemma SingleHighlightKept(head: seq<Element>, t: Theme)
    requires HighlightCount(head) <= 1
    ensures HighlightCount(AddHighlightTheme(head, t)) == 1
  {
  }

  /** The root after `updateTheme` has decided on theme `t`. */
  function MarkRoot(root: Element, t: Theme): (r: Element)
    ensures ThemeClass(Dark) in r.classes <==> t == Dark
    ensures r.classes - {ThemeClass(Dark)} == root.classes - {ThemeClass(Dark)}
    ensures ColorThemeAttr in r.attrs && r.attrs[ColorThemeAttr] == ThemeName(t)
    ensures r.attrs - {ColorThemeAttr} == root.attrs - {ColorThemeAttr}
  {
    match t
    case Dark => SetAttribute(AddClass(root, ThemeClass(Dark)), ColorThemeAttr, "dark")
    case Light => SetAttribute(RemoveClass(root, ThemeClass(Dark)), ColorThemeAttr, "light")
  }

  /** `updateTheme()`. */
  function UpdateTheme(page: Page): (r: Page)
    ensures r.store == page.store
    // the dark class follows the stored theme; "theme-light" and every other class stay as they were
    ensures ThemeClass(Dark) in r.doc.root.classes <==> ThemeKey in page.store && page.store[ThemeKey] == "dark"
    ensures ThemeClass(Light) in r.doc.root.classes <==> ThemeClass(Light) in page.doc.root.classes
    ensures r.doc.root.classes - {ThemeClass(Dark)} == page.doc.root.classes - {ThemeClass(Dark)}
    ensures ColorThemeAttr in r.doc.root.attrs && r.doc.root.attrs[ColorThemeAttr] == ThemeName(StoredTheme(page.store))
    ensures r.doc.root.attrs - {ColorThemeAttr} == page.doc.root.attrs - {ColorThemeAttr}
    // the stylesheet for the theme is the last child of <head>
    ensures |r.doc.head| > 0 && r.doc.head[|r.doc.head| - 1] == HighlightLink(StoredTheme(page.store))
    ensures r.doc.head[..|r.doc.head| - 1] == RemoveFirstHighlight(page.doc.head)
    ensures HighlightCount(page.doc.head) <= 1 ==> HighlightCount(r.doc.head) == 1
    ensures Plain(r.doc.head) == Plain(page.doc.head)
    ensures Restroked(page.doc.svgs, r.doc.svgs, LogoStroke(StoredTheme(page.store)))
    ensures r.doc.lightButton == page.doc.lightButton && r.doc.darkButton == page.doc.darkButton
  {
    var t := StoredTheme(page.store);
    var doc := page.doc.(root := MarkRoot(page.doc.root, t), head := AddHighlightTheme(page.doc.head, t));
    LogoColorFromStore(Page(doc, page.store))
  }

  /** Marking the root for the same theme twice is marking it once. */
  lemma MarkRootIdempotent(root: Element, t: Theme)
    ensures MarkRoot(MarkRoot(root, t), t) == MarkRoot(root, t)
  {
  }

  /** Marking the root twice leaves it as the second theme alone would. */
  lemma MarkRootLastWins(root: Element, first: Theme, second: Theme)
    ensures MarkRoot(MarkRoot(root, first), second) == MarkRoot(root, second)
  {
  }

  /** With at most one highlight link, the second stylesheet added replaces the first. */
  lemma {:induction false} AddHighlightThemeLastWins(head: seq<Element>, first: Theme, second: Theme)
    requires HighlightCount(head) <= 1
    ensures AddHighlightTheme(AddHighlightTheme(head, first), second) == AddHighlightTheme(head, second)
  {
    var kept := RemoveFirstHighlight(head);
    var once := AddHighlightTheme(head, first);
    assert once == kept + [HighlightLink(first)];
    RemoveFirstFindsAppended(kept, HighlightLink(first));
  }

  /** With at most one highlight link, adding the same stylesheet twice is adding it once. */
  lemma {:induction false} AddHighlightThemeIdempotent(head: seq<Element>, t: Theme)
    requires HighlightCount(head) <= 1
    ensures AddHighlightTheme(AddHighlightTheme(head, t), t) == AddHighlightTheme(head, t)
  {
    var kept := RemoveFirstHighlight(head);
    var once := AddHighlightTheme(head, t);
    assert once == kept + [HighlightLink(t)];
    RemoveFirstFindsAppended(kept, HighlightLink(t));
  }

  /** Updating twice is updating once, as long as `<head>` held at most one highlight link. */
  lemma {:induction false} UpdateThemeIdempotent(page: Page)
    requires HighlightCount(page.doc.head) <= 1
    ensures UpdateTheme(UpdateTheme(page)) == UpdateTheme(page)
  {
    var t := StoredTheme(page.store);
    var once := UpdateTheme(page);
    var twice := UpdateTheme(once);
    AddHighlightThemeIdempotent(page.doc.head, t);
    MarkRootIdempotent(page.doc.root, t);
    StrokeGroupsIdempotent(page.doc.svgs, LogoStroke(t));
    assert twice.doc.head == once.doc.head;
    assert twice.doc.root == once.doc.root;
    assert twice.doc.svgs == once.doc.svgs;
  }

  /** `toDarkMode` / `toLightMode`: store the choice under both keys, then update. */
  function SwitchTo(page: Page, t: Theme): (r: Page)
    // both keys take the choice; nothing else in storage changes
    ensures ThemeKey in r.store && r.store[ThemeKey] == ThemeName(t)
    ensures PreferenceKey in r.store && r.store[PreferenceKey] == ThemeClass(t)
    ensures r.store - {ThemeKey, PreferenceKey} == page.store - {ThemeKey, PreferenceKey}
    // the root is marked for the theme; its other classes and attributes stay
    ensures ThemeClass(Dark) in r.doc.root.classes <==> t == Dark
    ensures r.doc.root.classes - {ThemeClass(Dark)} == page.doc.root.classes - {ThemeClass(Dark)}
    ensures ColorThemeAttr in r.doc.root.attrs && r.doc.root.attrs[ColorThemeAttr] == ThemeName(t)
    ensures r.doc.root.attrs - {ColorThemeAttr} == page.doc.root.attrs - {ColorThemeAttr}
    // the stylesheet for the theme replaces the first highlight link at the end of <head>
    ensures |r.doc.head| > 0 && r.doc.head[|r.doc.head| - 1] == HighlightLink(t)
    ensures r.doc.head[..|r.doc.head| - 1] == RemoveFirstHighlight(page.doc.head)
    ensures HighlightCount(page.doc.head) <= 1 ==> HighlightCount(r.doc.head) == 1
    ensures Plain(r.doc.head) == Plain(page.doc.head)
    // the logo follows, the buttons are not touched
    ensures Restroked(page.doc.svgs, r.doc.svgs, LogoStroke(t))
    ensures r.doc.lightButton == page.doc.lightButton && r.doc.darkButton == page.doc.darkButton
  {
    var store := page.store[ThemeKey := ThemeName(t)][PreferenceKey := ThemeClass(t)];
    assert StoredTheme(store) == t;
    UpdateTheme(Page(page.doc, store))
  }

  /** Switching to the same theme twice is switching once, while `<head>` holds at most one highlight link. */
  lemma {:induction false} SwitchToIdempotent(page: Page, t: Theme)
    requires HighlightCount(page.doc.head) <= 1
    ensures SwitchTo(SwitchTo(page, t), t) == SwitchTo(page, t)
  {
    var store := page.store[ThemeKey := ThemeName(t)][PreferenceKey := ThemeClass(t)];
    var once := SwitchTo(page, t);
    assert once.store == store;
    assert once.store[ThemeKey := ThemeName(t)][PreferenceKey := ThemeClass(t)] == store;
    UpdateThemeIdempotent(Page(page.doc, store));
  }

  /** A second `updateTheme()` on the page a switch left changes nothing. */
  lemma {:induction false} UpdateAfterSwitchSettles(page: Page, t: Theme)
    requires HighlightCount(page.doc.head) <= 1
    ensures UpdateTheme(SwitchTo(page, t)) == SwitchTo(page, t)
  {
    var store := page.store[ThemeKey := ThemeName(t)][PreferenceKey := ThemeClass(t)];
    UpdateThemeIdempotent(Page(page.doc, store));
  }

  /**
   * A reload after switching shows the page the switch left: the served document,
   * updated by the load-time `updateTheme()` from the switched storage, is the
   * switched page.
   */
  lemma {:induction false} ReloadKeepsSwitch(served: Page, t: Theme)
    requires HighlightCount(served.doc.head) <= 1
    ensures var switched := SwitchTo(UpdateTheme(served), t);
      UpdateTheme(Page(served.doc, switched.store)) == switched
  {
    var loaded := UpdateTheme(served);
    var switched := SwitchTo(loaded, t);
    var reloaded := UpdateTheme(Page(served.doc, switched.store));
    var t0 := StoredTheme(served.store);
    assert StoredTheme(switched.store) == t;
    MarkRootLastWins(served.doc.root, t0, t);
    AddHighlightThemeLastWins(served.doc.head, t0, t);
    StrokeGroupsLastWins(served.doc.svgs, LogoStroke(t0), LogoStroke(t));
    assert reloaded.doc.root == switched.doc.root;
    assert reloaded.doc.head == switched.doc.head;
    assert reloaded.doc.svgs == switched.doc.svgs;
  }

  /** `window.toDarkMode()`. */
  function ToDarkMode(page: Page): (r: Page)
    ensures ThemeKey in r.store && r.store[ThemeKey] == "dark"
    ensures PreferenceKey in r.store && r.store[PreferenceKey] == "theme-dark"
    ensures r.store - {ThemeKey, PreferenceKey} == page.store - {ThemeKey, PreferenceKey}
    ensures ThemeClass(Dark) in r.doc.root.classes
    ensures r.doc.root.classes - {ThemeClass(Dark)} == page.doc.root.classes - {ThemeClass(Dark)}
    ensures ColorThemeAttr in r.doc.root.attrs && r.doc.root.attrs[ColorThemeAttr] == "dark"
    ensures r.doc.root.attrs - {ColorThemeAttr} == page.doc.root.attrs - {ColorThemeAttr}
    ensures |r.doc.head| > 0 && r.doc.head[|r.doc.head| - 1] == HighlightLink(Dark)
    ensures r.doc.head[..|r.doc.head| - 1] == RemoveFirstHighlight(page.doc.head)
    ensures Restroked(page.doc.svgs, r.doc.svgs, DarkStroke)
    ensures r.doc.lightButton == page.doc.lightButton && r.doc.darkButton == page.doc.darkButton
  {
    SwitchTo(page, Dark)
  }

  /** `window.toLightMode()`. */
  function ToLightMode(page: Page): (r: Page)
    ensures ThemeKey in r.store && r.store[ThemeKey] == "light"
    ensures PreferenceKey in r.store && r.store[PreferenceKey] == "theme-light"
    ensures r.store - {ThemeKey, PreferenceKey} == page.store - {ThemeKey, PreferenceKey}
    ensures ThemeClass(Dark) !in r.doc.root.classes
    ensures r.doc.root.classes - {ThemeClass(Dark)} == page.doc.root.classes - {ThemeClass(Dark)}
    ensures ColorThemeAttr in r.doc.root.attrs && r.doc.root.attrs[ColorThemeAttr] == "light"
    ensures r.doc.root.attrs - {ColorThemeAttr} == page.doc.root.attrs - {ColorThemeAttr}
    ensures |r.doc.head| > 0 && r.doc.head[|r.doc.head| - 1] == HighlightLink(Light)
    ensures r.doc.head[..|r.doc.head| - 1] == RemoveFirstHighlight(page.doc.head)
    ensures Restroked(page.doc.svgs, r.doc.svgs, LogoStroke(Light))
    ensures r.doc.lightButton == page.doc.lightButton && r.doc.darkButton == page.doc.darkButton
  {
    SwitchTo(page, Light)
  }

  /**
   * The preference this script stores ("theme-dark", "theme-light") is never a
   * usable preference for the resolver of `themes.js`.
   */
  lemma SwitchedPreferenceUnreadByResolver(page: Page, t: Theme, now: int)
    ensures Themes.ThemeFromStorage(SwitchTo(page, t).store, now) == None
  {
  }
}

=== FILE: decimal.dfy ===
/**
 * The two integer/string conversions the theme scripts rely on without saying so:
 * `localStorage.setItem(key, now)` stores `String(now)`, and `now - lastChanged`
 * coerces the stored string back with `Number(...)`.
 *
 * Only integer numerals are modelled; `MillisToNumber` answers None where the
 * JavaScript coercion yields NaN.
 */
module Decimal {
  import opened Optional

  predicate IsDigit(c: char) {
    '0' <= c <= '9'
  }

  predicate AllDigits(s: string) {
    forall i :: 0 <= i < |s| ==> IsDigit(s[i])
  }

  function DigitChar(d: nat): (c: char)
    requires d < 10
    ensures IsDigit(c)
  {
    (('0' as int) + d) as char
  }

  function DigitValue(c: char): (d: nat)
    requires IsDigit(c)
    ensures d < 10
    ensures DigitChar(d) == c
  {
    (c as int) - ('0' as int)
  }

  /** Canonical base-10 numeral of a natural number, as `String(n)` writes it. */
  function NatToDigits(n: nat): (s: string)
    ensures |s| > 0 && AllDigits(s)
    ensures n > 0 ==> s[0] != '0'
    ensures n < 10 <==> |s| == 1
  {
    if n < 10 then [DigitChar(n)] else NatToDigits(n / 10) + [DigitChar(n % 10)]
  }

  /** The value of a string of decimal digits; leading zeros are allowed, as in `Number("007")`. */
  function DigitsValue(s: string): nat
    requires AllDigits(s)
  {
    if |s| == 0 then 0 else DigitsValue(s[..|s| - 1]) * 10 + DigitValue(s[|s| - 1])
  }

  /** Reading back a canonical numeral gives the number that was written. */
  lemma {:induction false} DigitsRoundTrip(n: nat)
    ensures DigitsValue(NatToDigits(n)) == n
  {
    var s := NatToDigits(n);
    if n >= 10 {
      DigitsRoundTrip(n / 10);
      assert s[..|s| - 1] == NatToDigits(n / 10);
      assert s[|s| - 1] == DigitChar(n % 10);
    } else {
      assert s[..|s| - 1] == [];
    }
  }

  /** `String(n)` for an integral Number of milliseconds. */
  function MillisToString(n: int): (s: string)
    ensures n >= 0 ==> AllDigits(s)
    ensures n < 0 ==> |s| >= 2 && s[0] == '-' && AllDigits(s[1..])
  {
    if n < 0 then "-" + NatToDigits(-n) else NatToDigits(n)
  }

  /**
   * `Number(s)` restricted to integer numerals: the empty string is 0, an optional
   * sign followed by at least one digit is that integer, and everything else is NaN (None).
   */
  function MillisToNumber(s: string): (r: Option<int>)
    ensures s == "" ==> r == Some(0)
    ensures |s| > 0 && AllDigits(s) ==> r.Some? && r.value >= 0
    ensures r.Some? && |s| > 0 ==> IsDigit(s[|s| - 1])
    ensures r.Some? && |s| > 0 && s[0] == '-' ==> r.value <= 0
    ensures (exists i :: 0 < i < |s| && !IsDigit(s[i])) ==> r == None
  {
    if s == "" then Some(0)
    else if AllDigits(s) then Some(DigitsValue(s))
    else if |s| >= 2 && (s[0] == '-' || s[0] == '+') && AllDigits(s[1..]) then
      assert forall i :: 1 <= i < |s| ==> s[1..][i - 1] == s[i];
      var magnitude: int := DigitsValue(s[1..]);
      Some(if s[0] == '-' then -magnitude else magnitude)
    else
      None
  }

  /** A non-empty digit string reads as its value. */
  lemma DigitsNumber(d: string)
    requires |d| > 0 && AllDigits(d)
    ensures MillisToNumber(d) == Some(DigitsValue(d))
  {
  }

  /** A minus sign before a non-empty digit string reads as the negated value. */
  lemma NegatedDigitsNumber(d: string)
    requires |d| > 0 && AllDigits(d)
    ensures MillisToNumber("-" + d) == Some(-(DigitsValue(d) as int))
  {
  }

  /** A timestamp written with `String(now)` is read back by `Number(...)` unchanged. */
  lemma {:induction false} MillisRoundTrip(n: int)
    ensures MillisToNumber(MillisToString(n)) == Some(n)
  {
    if n < 0 {
      DigitsRoundTrip(-n);
      NegatedDigitsNumber(NatToDigits(-n));
    } else {
      DigitsRoundTrip(n);
      DigitsNumber(NatToDigits(n));
    }
  }
}

=== FILE: dom.dfy ===
/**
 * The abstract page the theme scripts act on: the root element's class list and
 * attributes, the two theme toggle buttons, every inline SVG with its first `g`
 * group, the children of `<head>`, and the origin's `localStorage`.
 *
 * Elements the scripts look up by id or selector are record fields here, so the
 * lookups themselves (and their null results) are not part of the model.
 */
module Dom {
  import opened Optional

  /** The two themes the scripts know; there is no third, "system" value in the code. */
  datatype Theme = Light | Dark

  function Other(t: Theme): (o: Theme)
    ensures o != t
  {
    if t == Light then Dark else Light
  }

  /** The theme's spelling in storage values, class names and file names. */
  function ThemeName(t: Theme): string {
    match t
    case Light => "light"
    case Dark => "dark"
  }

  /** The root class marking the active theme: `'theme-' + newTheme`. */
  const ThemeClasses: set<string> := {"theme-light", "theme-dark"}

  function ThemeClass(t: Theme): (c: string)
    ensures c in ThemeClasses
    ensures c == "theme-dark" <==> t == Dark
  {
    assert "theme-" + "light" == "theme-light" && "theme-" + "dark" == "theme-dark";
    "theme-" + ThemeName(t)
  }

  /** The logo stroke colours of both `gacelaLogoColor` variants. */
  const DarkStroke := "#448aff"
  const LightStroke := "#123456"

  function LogoStroke(t: Theme): (c: string)
    ensures c == DarkStroke <==> t == Dark
    ensures c == LightStroke <==> t == Light
  {
    assert DarkStroke != LightStroke by {
      assert DarkStroke[1] == '4' && LightStroke[1] == '1';
    }
    match t
    case Dark => DarkStroke
    case Light => LightStroke
  }

  /** `localStorage`: string keys to string values. */
  type Store = map<string, string>

  /** The key both theme scripts write the chosen theme under. */
  const PreferenceKey := "preference-theme"

  /** An element reduced to what the scripts touch: its class list and its attributes. */
  datatype Element = Element(classes: set<string>, attrs: map<string, string>)

  function AddClass(e: Element, c: string): (r: Element)
    ensures r.classes == e.classes + {c} && r.attrs == e.attrs
  {
    e.(classes := e.classes + {c})
  }

  function RemoveClass(e: Element, c: string): (r: Element)
    ensures r.classes == e.classes - {c} && r.attrs == e.attrs
  {
    e.(classes := e.classes - {c})
  }

  function SetAttribute(e: Element, name: string, value: string): (r: Element)
    ensures name in r.attrs && r.attrs[name] == value
    ensures r.attrs - {name} == e.attrs - {name}
    ensures r.attrs.Keys == e.attrs.Keys + {name}
    ensures r.classes == e.classes
  {
    e.(attrs := e.attrs[name := value])
  }

  /** An inline `<svg>`; `group` is the result of `svg.querySelector('g')`. */
  datatype Svg = Svg(group: Option<Element>)

  /**
   * The document: `documentElement`, the elements with ids `theme-light-button`
   * and `theme-dark-button`, `querySelectorAll('svg')` in document order, and the
   * children of `<head>` in order.
   */
  datatype Doc = Doc(
    root: Element,
    lightButton: Element,
    darkButton: Element,
    svgs: seq<Svg>,
    head: seq<Element>)

  /** A browser tab: its document and the origin's storage. */
  datatype Page = Page(doc: Doc, store: Store)

  /** `document.getElementById('theme-' + t + '-button')`. */
  function ButtonOf(doc: Doc, t: Theme): Element {
    if t == Light then doc.lightButton else doc.darkButton
  }

  function WithButton(doc: Doc, t: Theme, e: Element): (r: Doc)
    ensures ButtonOf(r, t) == e
    ensures ButtonOf(r, Other(t)) == ButtonOf(doc, Other(t))
    ensures r.root == doc.root && r.svgs == doc.svgs && r.head == doc.head
  {
    if t == Light then doc.(lightButton := e) else doc.(darkButton := e)
  }

  /**
   * `after` is `before` with the stroke of every SVG group set to `colour`:
   * SVGs without a group are untouched, and a group keeps its classes and every
   * other attribute.
   */
  ghost predicate Restroked(before: seq<Svg>, after: seq<Svg>, colour: string) {
    && |after| == |before|
    && forall i :: 0 <= i < |before| ==>
         if before[i].group.None? then after[i] == before[i]
         else
           && after[i].group.Some?
           && after[i].group.value.classes == before[i].group.value.classes
           && after[i].group.value.attrs.Keys == before[i].group.value.attrs.Keys + {"stroke"}
           && after[i].group.value.attrs["stroke"] == colour
           && after[i].group.value.attrs - {"stroke"} == before[i].group.value.attrs - {"stroke"}
  }

  function StrokeSvg(svg: Svg, colour: string): Svg {
    match svg.group
    case None => svg
    case Some(g) => Svg(Some(SetAttribute(g, "stroke", colour)))
  }

  /** Every inline SVG that has a group gets that group's stroke set to `colour`; SVGs without one are skipped. */
  function StrokeGroups(svgs: seq<Svg>, colour: string): (r: seq<Svg>)
    ensures Restroked(svgs, r, colour)
  {
    if |svgs| == 0 then [] else [StrokeSvg(svgs[0], colour)] + StrokeGroups(svgs[1..], colour)
  }

  /** Recolouring with the colour already applied changes nothing. */
  lemma {:induction false} StrokeGroupsIdempotent(svgs: seq<Svg>, colour: string)
    ensures StrokeGroups(StrokeGroups(svgs, colour), colour) == StrokeGroups(svgs, colour)
  {
    if |svgs| > 0 {
      var once := StrokeGroups(svgs, colour);
      assert once[1..] == StrokeGroups(svgs[1..], colour);
      StrokeGroupsIdempotent(svgs[1..], colour);
      match svgs[0].group
      case None =>
      case Some(g) =>
        assert g.attrs[("stroke") := colour][("stroke") := colour] == g.attrs[("stroke") := colour];
    }
  }

  /** Recolouring overrides the previous colour: only the last colour applied shows. */
  lemma {:induction false} StrokeGroupsLastWins(svgs: seq<Svg>, first: string, second: string)
    ensures StrokeGroups(StrokeGroups(svgs, first), second) == StrokeGroups(svgs, second)
  {
    if |svgs| > 0 {
      var once := StrokeGroups(svgs, first);
      assert once[1..] == StrokeGroups(svgs[1..], first);
      StrokeGroupsLastWins(svgs[1..], first, second);
      match svgs[0].group
      case None =>
      case Some(g) =>
        assert g.attrs[("stroke") := first][("stroke") := second] == g.attrs[("stroke") := second];
    }
  }

  /** `gacelaLogoColor(theme)`: stroke every logo group with the theme's colour. */
  function GacelaLogoColor(svgs: seq<Svg>, t: Theme): (r: seq<Svg>)
    ensures Restroked(svgs, r, LogoStroke(t))
  {
    StrokeGroups(svgs, LogoStroke(t))
  }
}

=== FILE: optional.dfy ===
/** The absent-or-present value the scripts express with `undefined`/`null`. */
module Optional {

  datatype Option<+T> = None | Some(value: T) {

    /** Returns the value in Some, or the default when None. */
    function GetOr(default: T): T {
      match this
      case Some(v) => v
      case None => default
    }
  }
}

=== FILE: themes.dfy ===
/**
 * The theme controller of `static/themes.js` and its listener-only copy
 * `static/initialize-theme.js`: the resolution chain run on page load
 * (fresh stored preference, then the OS colour-scheme signal, then the hour),
 * `enableTheme`, and the two event handlers that keep a tab in step.
 *
 * The clock (`new Date()`) and the media-query answers are parameters.
 */
module Themes {
  import opened Optional
  import opened Decimal
  import opened Dom

  /** `saveToLocalStorage` stores the write time under `key + "-last-change"`. */
  const LastChangeSuffix := "-last-change"
  const LastChangeKey := PreferenceKey + LastChangeSuffix

  /** A stored preference counts while it is under 120 minutes old (in milliseconds). */
  const FreshWindowMs := 120 * 60 * 1000

  /** `new Date().getHours()`. */
  type Hour = h: int | 0 <= h < 24

  /** What the outside world answers during one resolution. */
  datatype Environment = Environment(
    now: int,              // `new Date().getTime()`
    prefersDark: bool,     // `matchMedia('(prefers-color-scheme: dark)').matches`
    prefersLight: bool,    // `matchMedia('(prefers-color-scheme: light)').matches`
    hour: Hour)

  /** The stored strings the resolver and the storage listener accept: exactly "light" or "dark". */
  function ParseTheme(v: string): (r: Option<Theme>)
    ensures r.Some? ==> ThemeName(r.value) == v
    ensures v == "light" ==> r == Some(Light)
    ensures v == "dark" ==> r == Some(Dark)
  {
    if v == "light" then Some(Light)
    else if v == "dark" then Some(Dark)
    else None
  }

  lemma ParseThemeName(t: Theme)
    ensures ParseTheme(ThemeName(t)) == Some(t)
  {
  }

  /** `saveToLocalStorage(key, value)` at time `now`. */
  function SaveToLocalStorage(store: Store, key: string, value: string, now: int): (r: Store)
    ensures key in r && r[key] == value
    ensures key + LastChangeSuffix in r && r[key + LastChangeSuffix] == MillisToString(now)
    ensures r.Keys == store.Keys + {key, key + LastChangeSuffix}
    ensures r - {key, key + LastChangeSuffix} == store - {key, key + LastChangeSuffix}
  {
    assert key != key + LastChangeSuffix by {
      assert |key + LastChangeSuffix| > |key|;
    }
    store[key := value][key + LastChangeSuffix := MillisToString(now)]
  }

  /**
   * The number `now - lastChanged` sees: `getItem` gives null when the key is
   * absent and null coerces to 0; a stored string goes through `Number(...)`.
   * None stands for NaN.
   */
  function LastChanged(store: Store): (r: Option<int>)
    ensures LastChangeKey !in store ==> r == Some(0)
    ensures LastChangeKey in store && store[LastChangeKey] == "" ==> r == Some(0)
  {
    if LastChangeKey in store then MillisToNumber(store[LastChangeKey]) else Some(0)
  }

  /** The timestamp `saveToLocalStorage` writes is read back as the time it was saved at. */
  lemma {:induction false} SavedTimestampReadBack(store: Store, value: string, now: int)
    ensures LastChanged(SaveToLocalStorage(store, PreferenceKey, value, now)) == Some(now)
  {
    MillisRoundTrip(now);
  }

  /** Fewer than 120 minutes have passed since the stored timestamp; a NaN difference is never below 120. */
  predicate IsFresh(store: Store, now: int): (b: bool)
    // no timestamp reads as 0, so the preference counts only in the first two hours of the epoch
    ensures LastChangeKey !in store ==> (b <==> now < FreshWindowMs)
    // a timestamp that reads as NaN is never fresh
    ensures LastChangeKey in store && MillisToNumber(store[LastChangeKey]) == None ==> !b
    // a readable timestamp is fresh for strictly less than two hours after it
    ensures LastChangeKey in store && MillisToNumber(store[LastChangeKey]).Some? ==>
      (b <==> now < MillisToNumber(store[LastChangeKey]).value + FreshWindowMs)
  {
    match LastChanged(store)
    case Some(last) => now - last < FreshWindowMs
    case None => false
  }

  /** `returnThemeBasedOnLocalStorage()`. */
  function ThemeFromStorage(store: Store, now: int): (r: Option<Theme>)
    ensures r.Some? ==> IsFresh(store, now)
    ensures r.Some? ==> PreferenceKey in store && store[PreferenceKey] == ThemeName(r.value)
    ensures PreferenceKey in store && store[PreferenceKey] in {"light", "dark"} && IsFresh(store, now) ==> r.Some?
  {
    if IsFresh(store, now) && PreferenceKey in store then ParseTheme(store[PreferenceKey]) else None
  }

  /** A choice saved at `at` is used up to the last millisecond before two hours have passed, and not after. */
  lemma {:induction false} FreshnessEdge(store: Store, t: Theme, at: int)
    requires PreferenceKey in store && store[PreferenceKey] == ThemeName(t)
    requires LastChangeKey in store && store[LastChangeKey] == MillisToString(at)
    ensures ThemeFromStorage(store, at + FreshWindowMs - 1) == Some(t)
    ensures ThemeFromStorage(store, at + FreshWindowMs) == None
  {
    MillisRoundTrip(at);
  }

  /** A timestamp `Number(...)` reads as NaN makes every stored preference stale. */
  lemma UnreadableTimestampIsStale(store: Store, now: int)
    requires LastChangeKey in store && MillisToNumber(store[LastChangeKey]) == None
    ensures ThemeFromStorage(store, now) == None
  {
  }

  /** `returnThemeBasedOnOS()`: the dark query is asked first. */
  function ThemeFromOS(prefersDark: bool, prefersLight: bool): (r: Option<Theme>)
    ensures r == Some(Dark) <==> prefersDark
    ensures r == Some(Light) <==> !prefersDark && prefersLight
    ensures r == None <==> !prefersDark && !prefersLight
  {
    if prefersDark then Some(Dark)
    else if prefersLight then Some(Light)
    else None
  }

  /** The night hours: 21:00 to 04:59. */
  const NightHours: set<int> := {21, 22, 23, 0, 1, 2, 3, 4}

  /** `returnThemeBasedOnTime()`. */
  function ThemeFromTime(hour: Hour): (r: Theme)
    ensures r == Dark <==> hour in NightHours
  {
    if hour > 20 || hour < 5 then Dark else Light
  }

  /** The hours either side of the night window are light. */
  lemma NightBoundaries()
    ensures ThemeFromTime(20) == Light && ThemeFromTime(5) == Light
    ensures ThemeFromTime(21) == Dark && ThemeFromTime(4) == Dark
  {
  }

  /** The page-load theme: a usable stored preference first, then the OS answer, then the clock. */
  function ResolveTheme(store: Store, env: Environment): (r: Theme)
    // a fresh "light"/"dark" decides
    ensures PreferenceKey in store && store[PreferenceKey] in {"light", "dark"} && IsFresh(store, env.now) ==>
      ThemeName(r) == store[PreferenceKey]
    // otherwise the dark query, then the light query
    ensures ThemeFromStorage(store, env.now).None? && env.prefersDark ==> r == Dark
    ensures ThemeFromStorage(store, env.now).None? && !env.prefersDark && env.prefersLight ==> r == Light
    // otherwise the clock
    ensures ThemeFromStorage(store, env.now).None? && !env.prefersDark && !env.prefersLight ==>
      (r == Dark <==> env.hour in NightHours)
  {
    match ThemeFromStorage(store, env.now)
    case Some(t) => t
    case None =>
      match ThemeFromOS(env.prefersDark, env.prefersLight)
      case Some(t) => t
      case None => ThemeFromTime(env.hour)
  }

  /** A fresh stored "light" or "dark" decides, whatever the OS and the clock say. */
  lemma FreshPreferenceWins(store: Store, env: Environment, t: Theme)
    requires PreferenceKey in store && store[PreferenceKey] == ThemeName(t)
    requires IsFresh(store, env.now)
    ensures ResolveTheme(store, env) == t
  {
  }

  /** Without a usable stored preference, a definite OS answer decides, whatever the hour. */
  lemma OsBeatsClock(store: Store, env: Environment)
    requires PreferenceKey !in store || store[PreferenceKey] !in {"light", "dark"} || !IsFresh(store, env.now)
    requires env.prefersDark || env.prefersLight
    ensures ResolveTheme(store, env) == (if env.prefersDark then Dark else Light)
  {
  }

  /** With neither a usable preference nor an OS answer, the hour decides. */
  lemma ClockIsLastResort(store: Store, env: Environment)
    requires PreferenceKey !in store || store[PreferenceKey] !in {"light", "dark"} || !IsFresh(store, env.now)
    requires !env.prefersDark && !env.prefersLight
    ensures ResolveTheme(store, env) == Dark <==> env.hour in NightHours
  {
  }

  /**
   * A stale timestamp, a NaN timestamp or a foreign value (such as "theme-dark")
   * resolves exactly as if no preference were stored at all.
   */
  lemma UnusablePreferenceFallsThrough(store: Store, env: Environment)
    requires PreferenceKey in store
    requires store[PreferenceKey] !in {"light", "dark"} || !IsFresh(store, env.now)
    ensures ResolveTheme(store, env) == ResolveTheme(store - {PreferenceKey}, env)
  {
  }

  /** The class `enableTheme` gives the root: `add('theme-' + t)`, then `remove('theme-' + other)`. */
  function SwitchRootClass(root: Element, t: Theme): (r: Element)
    ensures ThemeClass(t) in r.classes && ThemeClass(Other(t)) !in r.classes
    ensures r.classes - ThemeClasses == root.classes - ThemeClasses
    ensures r.attrs == root.attrs
  {
    RemoveClass(AddClass(root, ThemeClass(t)), ThemeClass(Other(t)))
  }

  /** The toggle buttons after `enableTheme(t)`: the other one is offered, the active one is pressed. */
  function PressButton(doc: Doc, t: Theme): (r: Doc)
    ensures "enabled" !in ButtonOf(r, t).classes
    ensures "aria-pressed" in ButtonOf(r, t).attrs && ButtonOf(r, t).attrs["aria-pressed"] == "true"
    ensures "enabled" in ButtonOf(r, Other(t)).classes
    ensures "aria-pressed" in ButtonOf(r, Other(t)).attrs && ButtonOf(r, Other(t)).attrs["aria-pressed"] == "false"
    ensures forall b :: ButtonOf(r, b).classes - {"enabled"} == ButtonOf(doc, b).classes - {"enabled"}
    ensures forall b :: ButtonOf(r, b).attrs - {"aria-pressed"} == ButtonOf(doc, b).attrs - {"aria-pressed"}
    ensures r.root == doc.root && r.svgs == doc.svgs && r.head == doc.head
  {
    var offered := SetAttribute(AddClass(ButtonOf(doc, Other(t)), "enabled"), "aria-pressed", "false");
    var pressed := SetAttribute(RemoveClass(ButtonOf(doc, t), "enabled"), "aria-pressed", "true");
    WithButton(WithButton(doc, Other(t), offered), t, pressed)
  }

  /** `enableTheme(t)` at time `now`. */
  function EnableTheme(page: Page, t: Theme, now: int): (r: Page)
    // exactly one theme class on the root, every other class untouched
    ensures ThemeClass(t) in r.doc.root.classes && ThemeClass(Other(t)) !in r.doc.root.classes
    ensures r.doc.root.classes - ThemeClasses == page.doc.root.classes - ThemeClasses
    ensures r.doc.root.attrs == page.doc.root.attrs
    // the active button is pressed, the other is offered
    ensures "enabled" !in ButtonOf(r.doc, t).classes
    ensures "aria-pressed" in ButtonOf(r.doc, t).attrs && ButtonOf(r.doc, t).attrs["aria-pressed"] == "true"
    ensures "enabled" in ButtonOf(r.doc, Other(t)).classes
    ensures "aria-pressed" in ButtonOf(r.doc, Other(t)).attrs && ButtonOf(r.doc, Other(t)).attrs["aria-pressed"] == "false"
    ensures forall b :: ButtonOf(r.doc, b).classes - {"enabled"} == ButtonOf(page.doc, b).classes - {"enabled"}
    ensures forall b :: ButtonOf(r.doc, b).attrs - {"aria-pressed"} == ButtonOf(page.doc, b).attrs - {"aria-pressed"}
    // every logo group takes the theme's stroke; nothing else in the document moves
    ensures Restroked(page.doc.svgs, r.doc.svgs, LogoStroke(t))
    ensures r.doc.head == page.doc.head
    // the choice and its time are stored, and nothing else in storage changes
    ensures PreferenceKey in r.store && r.store[PreferenceKey] == ThemeName(t)
    ensures LastChangeKey in r.store && r.store[LastChangeKey] == MillisToString(now)
    ensures r.store - {PreferenceKey, LastChangeKey} == page.store - {PreferenceKey, LastChangeKey}
  {
    var pressed := PressButton(page.doc, t);
    var doc := pressed.(root := SwitchRootClass(pressed.root, t), svgs := GacelaLogoColor(pressed.svgs, t));
    Page(doc, SaveToLocalStorage(page.store, PreferenceKey, ThemeName(t), now))
  }

  /** Enabling the same theme again only refreshes the timestamp. */
  lemma {:induction false} EnableThemeIdempotent(page: Page, t: Theme, first: int, second: int)
    ensures EnableTheme(EnableTheme(page, t, first), t, second) == EnableTheme(page, t, second)
  {
    var once := EnableTheme(page, t, first);
    var twice := EnableTheme(once, t, second);
    var direct := EnableTheme(page, t, second);
    SwitchRootClassIdempotent(page.doc.root, t);
    PressButtonIdempotent(page.doc, t);
    StrokeGroupsIdempotent(page.doc.svgs, LogoStroke(t));
    assert twice.doc.root == direct.doc.root;
    assert twice.doc.lightButton == direct.doc.lightButton;
    assert twice.doc.darkButton == direct.doc.darkButton;
    assert twice.doc.svgs == direct.doc.svgs;
    assert twice.store == direct.store;
  }

  lemma SwitchRootClassIdempotent(root: Element, t: Theme)
    ensures SwitchRootClass(SwitchRootClass(root, t), t) == SwitchRootClass(root, t)
  {
  }

  lemma PressButtonIdempotent(doc: Doc, t: Theme)
    ensures PressButton(PressButton(doc, t), t).lightButton == PressButton(doc, t).lightButton
    ensures PressButton(PressButton(doc, t), t).darkButton == PressButton(doc, t).darkButton
  {
  }

  /** Store-then-resolve: a theme just enabled is what the next page load resolves, for two hours. */
  lemma {:induction false} EnableThenResolve(page: Page, t: Theme, now: int, env: Environment)
    requires env.now - now < FreshWindowMs
    ensures ResolveTheme(EnableTheme(page, t, now).store, env) == t
  {
    var store := EnableTheme(page, t, now).store;
    MillisRoundTrip(now);
    assert LastChanged(store) == Some(now);
    FreshPreferenceWins(store, env, t);
  }

  /** A storage event as the `storage` listener receives it; `key` is null after `clear()`. */
  datatype StorageEvent = StorageEvent(key: Option<string>, newValue: Option<string>)

  /** The `storage` listener body, shared by `themes.js` and `initialize-theme.js`. */
  function OnStorageEvent(page: Page, e: StorageEvent, now: int): (r: Page)
    ensures e.key != Some(PreferenceKey) ==> r == page
    ensures e.newValue != Some("light") && e.newValue != Some("dark") ==> r == page
    ensures e.key == Some(PreferenceKey) && e.newValue == Some("light") ==> r == EnableTheme(page, Light, now)
    ensures e.key == Some(PreferenceKey) && e.newValue == Some("dark") ==> r == EnableTheme(page, Dark, now)
  {
    if e.key == Some(PreferenceKey) && e.newValue.Some? then
      match ParseTheme(e.newValue.value)
      case Some(t) => EnableTheme(page, t, now)
      case None => page
    else page
  }

  /** Another tab choosing a theme brings this tab's root classes to that theme. */
  lemma SyncFollowsOtherTab(page: Page, t: Theme, now: int)
    ensures var r := OnStorageEvent(page, StorageEvent(Some(PreferenceKey), Some(ThemeName(t))), now);
      ThemeClass(t) in r.doc.root.classes && ThemeClass(Other(t)) !in r.doc.root.classes
  {
  }

  /** The variant value dark-mode.js writes is not a theme to the listener. */
  lemma SyncIgnoresPrefixedValue(page: Page, now: int)
    ensures OnStorageEvent(page, StorageEvent(Some(PreferenceKey), Some("theme-dark")), now) == page
  {
  }

  /** The `prefers-color-scheme: dark` change listener body, shared by both scripts. */
  function OnColorSchemeChange(page: Page, matches: bool, now: int): (r: Page)
    ensures var t := if matches then Dark else Light;
      ThemeClass(t) in r.doc.root.classes
    ensures var t := if matches then Dark else Light;
      ThemeClass(t) in page.doc.root.classes ==> r == page
    ensures var t := if matches then Dark else Light;
      ThemeClass(t) !in page.doc.root.classes ==> r == EnableTheme(page, t, now)
  {
    if !matches then
      if ThemeClass(Light) !in page.doc.root.classes then EnableTheme(page, Light, now) else page
    else if ThemeClass(Dark) !in page.doc.root.classes then EnableTheme(page, Dark, now)
    else page
  }

  /** A repeated OS notification changes nothing more. */
  lemma ColorSchemeChangeSettles(page: Page, matches: bool, first: int, second: int)
    ensures var once := OnColorSchemeChange(page, matches, first);
      OnColorSchemeChange(once, matches, second) == once
  {
  }

  /** The listeners a script registers, in registration order. */
  datatype Listener = StorageSync | ColorSchemeSync

  /** A tab after a theme script's top-level code has run. */
  datatype Boot = Boot(page: Page, listeners: seq<Listener>)

  /** The immediately invoked `initializeTheme` of `themes.js`: register, resolve, enable. */
  function InitializeTheme(page: Page, env: Environment): (r: Boot)
    ensures r.listeners == [StorageSync, ColorSchemeSync]
    ensures ResolveTheme(r.page.store, env) == ResolveTheme(page.store, env)
    // the resolved theme is enabled in full: root class, buttons, logo, head and storage
    ensures var t := ResolveTheme(page.store, env);
      ThemeClass(t) in r.page.doc.root.classes && ThemeClass(Other(t)) !in r.page.doc.root.classes
    ensures r.page.doc.root.classes - ThemeClasses == page.doc.root.classes - ThemeClasses
    ensures r.page.doc.root.attrs == page.doc.root.attrs
    ensures forall b :: ButtonOf(r.page.doc, b).classes - {"enabled"} == ButtonOf(page.doc, b).classes - {"enabled"}
    ensures forall b :: ButtonOf(r.page.doc, b).attrs - {"aria-pressed"} == ButtonOf(page.doc, b).attrs - {"aria-pressed"}
    ensures var t := ResolveTheme(page.store, env);
      "enabled" !in ButtonOf(r.page.doc, t).classes && "enabled" in ButtonOf(r.page.doc, Other(t)).classes
    ensures var t := ResolveTheme(page.store, env);
      "aria-pressed" in ButtonOf(r.page.doc, t).attrs && ButtonOf(r.page.doc, t).attrs["aria-pressed"] == "true"
    ensures var t := ResolveTheme(page.store, env);
      "aria-pressed" in ButtonOf(r.page.doc, Other(t)).attrs && ButtonOf(r.page.doc, Other(t)).attrs["aria-pressed"] == "false"
    ensures Restroked(page.doc.svgs, r.page.doc.svgs, LogoStroke(ResolveTheme(page.store, env)))
    ensures r.page.doc.head == page.doc.head
    ensures PreferenceKey in r.page.store && r.page.store[PreferenceKey] == ThemeName(ResolveTheme(page.store, env))
    ensures LastChangeKey in r.page.store && r.page.store[LastChangeKey] == MillisToString(env.now)
    ensures r.page.store - {PreferenceKey, LastChangeKey} == page.store - {PreferenceKey, LastChangeKey}
  {
    var t := ResolveTheme(page.store, env);
    EnableThenResolve(page, t, env.now, env);
    Boot(EnableTheme(page, t, env.now), [StorageSync, ColorSchemeSync])
  }

  /** The immediately invoked `initializeTheme` of `initialize-theme.js`: register only. */
  function InitializeListeners(page: Page): (r: Boot)
    ensures r.listeners == [StorageSync, ColorSchemeSync]
    ensures r.page == page
  {
    Boot(page, [StorageSync, ColorSchemeSync])
  }
}
